=== FILE: README.md ===
# Phone swapper: a Dafny model

This project models the decision logic of `dynamic-phone.js`, a page script that rewrites phone
numbers and `tel:` links by marketing attribution (a UTM value). The script works like this:

* It reads the attribution from the query parameter `utm_<parameter>`. A fresh value is remembered
  in `localStorage` with a capture time. Otherwise a remembered value is used while it has not
  expired.
* It picks a number per CSS selector: the selector's entry for the attribution, else the
  selector's default, else the global fallback.
* For every configured selector it writes that number into each matching element that selector
  has not processed yet, and records the element as processed.
* When elements are inserted into the page, it schedules a debounced re-run.

The DOM, storage, the clock and the query string are all explicit values. The pass is a pure
function from (configuration, query value, time, document, registry, storage) to (document,
registry, storage, count).

| file | module | models |
|---|---|---|
| `wrappers.dfy` | `Wrappers` | `Option`, standing for `null` / a missing entry |
| `js_string.dfy` | `JsString` | JavaScript whitespace, `trim`, `indexOf(p) === 0`, `parseInt`, `toString` of a time |
| `phone.dfy` | `Phone` | `cleanPhone` |
| `settings.dfy` | `Settings` | the configuration record, storage keys, the shipped configuration |
| `local_storage.dfy` | `LocalStorage` | `safeLocalStorageGet` / `safeLocalStorageSet` |
| `attribution.dfy` | `Attribution` | `getStoredUtm`, `getUtmValue` |
| `resolver.dfy` | `Resolver` | `getPhoneForSelector` |
| `processed_set.dfy` | `ProcessedSet` | `createSet` |
| `updater.dfy` | `Updater` | `updatePhoneElements` over an abstract document |
| `watcher.dfy` | `Watcher` | `debounceUpdate`, `cleanup`, the mutation callback, timer firing, `init` |

Behaviours of the code that the model keeps on purpose:

* `getPhoneForSelector` calls `getUtmValue` again for every selector, so storage is rewritten once
  per selector. The value resolved at the start of the pass is only logged. With the clock read
  once per pass (see Left out), `GetUtmValueStable` proves that every one of these calls gives
  the same attribution and leaves storage as the first one left it.
* Lookups use truthiness. An empty-string mapping entry or default falls through to the next tier.
* `parseInt` of a malformed timestamp is NaN, and `NaN > days` is false. A record whose capture
  time cannot be read is therefore never treated as expired.
* Both stored entries are tested for truthiness, so an empty stored string counts as missing.
* `(now - time) / 86400000 > utmPersistDays` is compared exactly as `now - time > days * 86400000`.
  The elapsed time equal to the window is still valid.
* Each selector keeps its own processed set, so an element matched by several selectors is
  written once by each, in the order of the mapping table. When the earlier numbers have a
  visible character, the last one wins. An earlier number that is empty or only whitespace leaves
  text that later selectors no longer replace (`BlankWriteSticks`). In the shipped configuration
  every number starts with `+` and the generic `.phone` selector is visited last, so an element
  that is also a `.header-phone` shows `.phone`'s number (`ShippedGenericSelectorWins`).
* A CSS selector that `querySelectorAll` rejects throws. The pass stops there and returns 0, but
  the writes and registrations of the earlier selectors remain.
* `node.querySelectorAll` sees only descendants. An inserted element that itself matches a selector
  does not schedule a pass unless it also has a matching descendant, although the code comment says
  the node itself is checked (`SelfMatchIgnored`).
* After its timer fires, `debounceTimer` keeps the spent handle. Clearing a spent handle does
  nothing.

## Model

| member | source | states |
|---|---|---|
| JsString.TrimNonEmptyIff | dynamic-phone.js:231 | `textContent.trim()` is truthy exactly when the text holds a non-whitespace character |
| JsString.ParseIntDigits | dynamic-phone.js:146 | `parseInt` of a non-empty run of decimal digits is their value |
| JsString.ParseIntSigned | dynamic-phone.js:146 | `parseInt` of `-` or `+` followed by a run of digits is the digits' value, negated for `-` |
| JsString.ParseIntNaN | dynamic-phone.js:146 | `parseInt` of an empty string, or of one starting with neither whitespace, a sign nor a digit, is NaN |
| JsString.ParseIntSkipsWhitespace | dynamic-phone.js:146 | a leading whitespace character does not change what `parseInt` reads |
| JsString.ParseIntOfNatToString | dynamic-phone.js:128-146 | `parseInt` reads back the decimal time string `Date.now().toString()` wrote as the same number |
| Phone.CleanPhone | dynamic-phone.js:168-171 | the result holds only digits, is no longer than the input, and a digit-only input is returned unchanged (empty gives empty) |
| Phone.CleanPhoneKeepsDigits | dynamic-phone.js:168-171 | each digit occurs in the result exactly as often as in the input; no other character occurs |
| Phone.CleanPhoneConcat | dynamic-phone.js:170 | cleaning distributes over concatenation, so digits keep their original order |
| Phone.CleanPhoneSingle | dynamic-phone.js:170 | a single character survives exactly when it is a digit |
| Phone.CleanPhoneIdempotent | dynamic-phone.js:168-171 | cleaning a cleaned number changes nothing |
| LocalStorage.Get | dynamic-phone.js:97-106 | a read yields the entry when storage is readable and has the key; a failing read is absent |
| LocalStorage.Set | dynamic-phone.js:108-118 | a write stores the value when storage is writable, is silently lost otherwise, and leaves other keys alone |
| Settings.StorageKeysDiffer | dynamic-phone.js:127-128 | the attribution key and the time key are different keys |
| Settings.ShippedConfigShape | dynamic-phone.js:8-69 | the shipped configuration lists its five selectors once each, `.phone` last, each with a non-empty default; it remembers `utm_source` for 30 days, rewrites links and watches the page |
| Attribution.GetStoredUtm | dynamic-phone.js:139-153 | a missing or empty value or time gives `{utm: null, expired: true}`; otherwise the value, expired iff elapsed ms exceed the window (NaN never expires) |
| Attribution.GetUtmValue | dynamic-phone.js:121-136 | a truthy query value is returned and written with the current time; otherwise storage is untouched and the stored value is returned iff present and unexpired; never an empty string; no other key changes; on unwritable storage the write is lost and storage is as it was |
| Attribution.GetUtmValueStable | dynamic-phone.js:175 | repeating the resolution with the same inputs returns the same value and leaves storage as it was |
| Attribution.RememberedValueReadsBack | dynamic-phone.js:125-147 | a fresh value written at `now` reads back later as the same value, expired iff more than the window elapsed |
| Attribution.LaterVisitWithinWindow | dynamic-phone.js:121-147 | a later visit without a query parameter resolves the remembered value iff at most the window has elapsed |
| Attribution.ExpiredRecordIsAbsent | dynamic-phone.js:130-135 | an expired record resolves exactly like an empty storage |
| Attribution.MalformedTimestampNeverExpires | dynamic-phone.js:144-147 | any stored value whose non-empty capture time `parseInt` reads as NaN is resolved at every time, without a query parameter |
| Attribution.WordTimestampNeverExpires | dynamic-phone.js:144-147 | a record with the time `not-a-time` is such a record |
| Attribution.WrittenTimeExpiresIff | dynamic-phone.js:128-147 | a time written by `Date.now().toString()` is expired exactly when more than the window has passed since |
| Attribution.StoredRecordReads | dynamic-phone.js:139-149 | a readable store holding just a non-empty value and time gives `getStoredUtm` that value, expired as the time says |
| Attribution.FortyDayOldRecordExpires | dynamic-phone.js:146-147 | with the shipped 30-day window, a record captured 40 days ago resolves to no attribution |
| Resolver.GetPhoneForSelector | dynamic-phone.js:174-202 | utm-match iff the attribution and its entry are truthy, then the selector default iff truthy, else the global fallback; number and source per tier; tiers 1 and 2 never give an empty number |
| Resolver.EmptyEntryFallsThrough | dynamic-phone.js:179-194 | an empty-string entry for the attribution resolves as if there were no attribution |
| Resolver.ResolutionIsLocal | dynamic-phone.js:176-201 | the result depends only on the selector's own table and default and the global fallback |
| Resolver.ShippedNumberVisible | dynamic-phone.js:8-69 | every number the shipped configuration resolves for a shipped selector has a visible character |
| Resolver.ShippedHeaderGoogle | dynamic-phone.js:174-185 | with the shipped configuration, `.header-phone` and attribution `google` give `+1 (555) 100-1111` as a utm-match |
| Resolver.ShippedHeaderNoAttribution | dynamic-phone.js:187-194 | with the shipped configuration and no attribution, `.header-phone` gives its default `+1 (555) 100-0000` |
| ProcessedSet.ItemSet.Has | dynamic-phone.js:80-85 | the scan answers true exactly when the item is stored |
| ProcessedSet.ItemSet.Add | dynamic-phone.js:86-90 | after `add(x)`, `has(x)` holds; adding a present item changes nothing; other items' membership is unchanged; items stay distinct and in insertion order |
| ProcessedSet.Empty | dynamic-phone.js:77-79 | a new set has no elements |
| Updater.UpdateElement | dynamic-phone.js:231-243 | text becomes the number iff it has a visible character; href becomes `tel:` plus the digits iff links are updated and the element is an anchor or already has a `tel:` href; the anchor flag never changes |
| Updater.UpdateElementIdempotent | dynamic-phone.js:231-243 | writing the same number twice equals writing it once |
| Updater.LaterWriteWins | dynamic-phone.js:231-243 | after a write whose number has a visible character, a second write leaves the element exactly as the second write alone would |
| Updater.BlankWriteSticks | dynamic-phone.js:231-233 | after a write whose number is empty or only whitespace, a second write leaves that text in place |
| Updater.SweepElements | dynamic-phone.js:225-248 | the element keys are kept, and the selector's processed set gains exactly the matched elements |
| Updater.SweepWritesFresh | dynamic-phone.js:225-245 | exactly the matched elements not yet processed are written, each once; all others are unchanged |
| Updater.SweepCountsFresh | dynamic-phone.js:228-247 | the selector's count is the number of distinct matched elements not yet processed, written or not |
| Updater.SweepNothingFresh | dynamic-phone.js:228 | a sweep over already processed elements changes nothing and counts 0 |
| Updater.Step | dynamic-phone.js:213-222 | one selector's iteration creates its processed set if missing, adds all its matches, touches no other selector's set, and leaves settled storage alone |
| Updater.RunSelectors | dynamic-phone.js:211-254 | the loop completes iff every selector is accepted by `querySelectorAll`; matches and element keys are unchanged; settled storage is unchanged |
| Updater.RunSelectorsCount | dynamic-phone.js:211-248 | with distinct accepted selectors the total is the sum of each selector's unprocessed matches |
| Updater.RunSelectorsLeavesUntouched | dynamic-phone.js:228 | an element new to no selector is not written |
| Updater.RunSelectorsKeepsAnchors | dynamic-phone.js:231-243 | no element's anchor flag changes |
| Updater.RunSelectorsSaturates | dynamic-phone.js:219-245 | the registry only grows, and every selector reached holds all its matches |
| Updater.RunSelectorsSaturatedUnchanged | dynamic-phone.js:228 | on a registry holding every match, the loop writes no element, registers nothing and counts nothing, for any attribution and storage |
| Updater.RunSelectorsNoOp | dynamic-phone.js:228 | on a registry holding every match and settled storage, the loop changes nothing and counts nothing |
| Updater.RunSelectorsWritesInOrder | dynamic-phone.js:211-245 | with distinct selectors and settled storage, every element ends the loop written by each selector it was new to, in order, each with its own number |
| Updater.LastSelectorWins | dynamic-phone.js:211-243 | when the earlier selectors' numbers are non-empty, an element new to the last selector ends with that selector's number |
| Updater.RunSelectorsWrites | dynamic-phone.js:175-243 | an element new to one selector only ends up written with that selector's number |
| Updater.UpdatePhoneElements | dynamic-phone.js:205-269 | the pass keeps the document's matches and elements, returns 0 when a selector throws, and leaves storage as the first `getUtmValue` call left it |
| Updater.PassCountsFreshElements | dynamic-phone.js:246-263 | the returned count is the sum over selectors of matched elements not yet processed |
| Updater.PassRegistersMatches | dynamic-phone.js:219-245 | after a pass every reached selector has registered all its matches, and no registration is lost |
| Updater.PassLeavesOthersAlone | dynamic-phone.js:228-243 | elements new to no selector are unchanged and no anchor flag changes |
| Updater.PassIdempotent | dynamic-phone.js:205-269 | a second pass at the same instant with the same query value, over what the first left, returns 0 and changes no element, registry entry or storage |
| Updater.PassIdempotentLater | dynamic-phone.js:205-269 | a second pass at any later time, with any query value and storage, over the document and registry the first left, returns 0 and changes no element or registry entry |
| Updater.PassWritesInOrder | dynamic-phone.js:205-245 | every element ends the pass written by each selector it was new to, in `Object.keys` order, with the numbers for the attribution resolved at the start |
| Updater.PassLastSelectorWins | dynamic-phone.js:205-245 | an element new to the last selector ends the pass with that selector's number, overriding earlier selectors, provided the earlier selectors' numbers have a visible character |
| Updater.ShippedGenericSelectorWins | dynamic-phone.js:44-49 | with the shipped configuration, an element new to `.phone` shows `.phone`'s number even if `.header-phone` or another selector matched it too |
| Updater.PassWritesResolvedNumber | dynamic-phone.js:175-237 | an element new to exactly one selector shows that selector's number for the pass's attribution |
| Watcher.Initial | dynamic-phone.js:74-94 | the loaded script has an empty registry and no pending timer |
| Watcher.Debounce | dynamic-phone.js:272-275 | the earlier timer is cancelled and exactly one new timer is pending, the one `debounceTimer` remembers |
| Watcher.Cleanup | dynamic-phone.js:278-284 | no timer is pending or remembered and the registry is empty |
| Watcher.CleanupIdempotent | dynamic-phone.js:278-284 | a second cleanup changes nothing |
| Watcher.DebounceCoalesces | dynamic-phone.js:272-275 | any number of schedulings in a row leave exactly one timer pending |
| Watcher.Fire | dynamic-phone.js:274 | a pending timer runs `updatePhoneElements` on the current registry, page and storage, taking its document, storage and registry, and stops being pending; a cancelled or spent one does nothing; `debounceTimer` is not reset |
| Watcher.BurstRunsOnePass | dynamic-phone.js:272-275 | after a burst only the last timer runs a pass, and afterwards no timer can run another |
| Watcher.NodeTriggers | dynamic-phone.js:308-325 | an added element asks for an update iff some selector has a descendant match and no earlier selector throws |
| Watcher.SelfMatchIgnored | dynamic-phone.js:309-315 | an added element matching every selector itself but with no matching descendant does not ask for an update |
| Watcher.ShouldUpdate | dynamic-phone.js:300-328 | the flag is set iff some childList record adds an element node whose scan asks for an update |
| Watcher.OnMutations | dynamic-phone.js:330-332 | a pass is debounced exactly when the flag is set; otherwise the state is unchanged |
| Watcher.Init | dynamic-phone.js:287-350 | init clears the timer; a ready document gets a first `updatePhoneElements` pass over an empty registry, whose document, storage and registry it keeps, and which registers every match; a loading one is left untouched; observing iff configured and available |

## Left out

- `getQueryParam` (regular expression and `decodeURIComponent`): the query value is an input `Option<string>`.
- `Date.now()`: the time is a parameter. One pass uses one time, while the script reads the clock in every `getUtmValue` call.
- `localStorage` exceptions: storage has a `readable` and a `writable` flag. A write that fails for only one of the two keys (quota) is not modelled.
- `JsString.ParseInt` does not model the `0x` hexadecimal prefix or the loss of precision past 2^53, because only decimal millisecond strings are written.
- Floating-point day division: replaced by the exact millisecond comparison above. `utmPersistDays` is a `nat`.
- CSS selector matching and `querySelectorAll`: the document gives each selector its matches. Writing `textContent` removes an element's children, which could change later matches; this is not modelled.
- `MutationObserver` and `DOMContentLoaded` wiring, and real `setTimeout` timing: only pending timer handles are modelled. `Init` takes "document loading" and "observer available" as inputs. A failing `observe` counts as "not available".
- Non-string config values (`cleanPhone`'s `typeof` check): numbers are always strings in this model.
- `console` logging, `debugMode`, the `window.phoneSwapper*` exports and JavaScript prototype keys on config objects.

=== FILE: attribution.dfy ===
/**
 Attribution resolution (`getStoredUtm` and `getUtmValue`): a fresh query
 parameter wins and is remembered with the current time; otherwise a remembered
 value is used while it has not expired.
 */
module Attribution {
  import opened Wrappers
  import opened JsString
  import opened Settings
  import opened LocalStorage

  /** The record `getStoredUtm` returns: `{utm, expired}`. */
  datatype StoredUtm = StoredUtm(utm: Option<string>, expired: bool)

  /** JavaScript truthiness of an optional string: present and non-empty. */
  predicate Truthy(s: Option<string>) {
    s.Some? && s.value != ""
  }

  /**
   `(now - parseInt(time)) / 86400000 > utmPersistDays`, compared exactly in
   milliseconds. A timestamp `parseInt` cannot read is NaN, and a comparison
   with NaN is false, so such a record never expires.
   */
  predicate IsExpired(c: Config, time: string, now: nat) {
    var t := ParseInt(time);
    t.Some? && now - t.value > WindowMs(c)
  }

  /** `getStoredUtm`: the remembered value with its expiry verdict. */
  function GetStoredUtm(c: Config, st: Store, now: nat): (r: StoredUtm)
    ensures (!Truthy(Get(st, UtmStorageKey(c))) || !Truthy(Get(st, TimeStorageKey)))
              ==> r == StoredUtm(None, true)
    ensures (Truthy(Get(st, UtmStorageKey(c))) && Truthy(Get(st, TimeStorageKey)))
              ==> (r.utm == Get(st, UtmStorageKey(c))
                   && (r.expired <==> IsExpired(c, Get(st, TimeStorageKey).value, now)))
  {
    var utm := Get(st, UtmStorageKey(c));
    var time := Get(st, TimeStorageKey);
    if !Truthy(utm) || !Truthy(time) then StoredUtm(None, true)
    else StoredUtm(utm, IsExpired(c, time.value, now))
  }

  /** What `getUtmValue` returns, together with storage after its writes. */
  datatype Resolution = Resolution(value: Option<string>, storage: Store)

  /** Storage after remembering `value` captured at `now`. */
  function Remember(c: Config, st: Store, value: string, now: nat): Store {
    Set(Set(st, UtmStorageKey(c), value), TimeStorageKey, NatToString(now))
  }

  /**
   `getUtmValue`, with the query parameter `query` (`getQueryParam`), the
   storage and the clock passed in.
   */
  function GetUtmValue(c: Config, query: Option<string>, st: Store, now: nat): (r: Resolution)
    ensures Truthy(query) ==> r.value == query
    ensures Truthy(query) && st.writable ==>
              UtmStorageKey(c) in r.storage.entries && r.storage.entries[UtmStorageKey(c)] == query.value
              && TimeStorageKey in r.storage.entries && r.storage.entries[TimeStorageKey] == NatToString(now)
    ensures !Truthy(query) ==> r.storage == st
    ensures !st.writable ==> r.storage == st
    ensures forall k :: k != UtmStorageKey(c) && k != TimeStorageKey ==> Get(r.storage, k) == Get(st, k)
    ensures !Truthy(query) ==>
              (r.value.Some? <==> Truthy(Get(st, UtmStorageKey(c))) && Truthy(Get(st, TimeStorageKey))
                                  && !IsExpired(c, Get(st, TimeStorageKey).value, now))
    ensures !Truthy(query) && r.value.Some? ==> r.value == Get(st, UtmStorageKey(c))
    ensures r.value.None? || r.value.value != ""
  {
    var stored := GetStoredUtm(c, st, now);
    if Truthy(query) then
      Resolution(query, Remember(c, st, query.value, now))
    else if Truthy(stored.utm) && !stored.expired then
      Resolution(stored.utm, st)
    else
      Resolution(None, st)
  }

  /**
   Storage is a fixed point after one resolution: resolving again with the same
   inputs gives the same value and writes nothing new. When every call of one
   pass reads the same clock value, the script's repeated `getUtmValue` calls
   within that pass therefore all agree.
   */
  lemma GetUtmValueStable(c: Config, query: Option<string>, st: Store, now: nat)
    ensures var r := GetUtmValue(c, query, st, now);
            GetUtmValue(c, query, r.storage, now) == r
  {
  }

  /**
   A fresh value written at `now` is read back at `later` as the same value,
   expired exactly when more than the window has elapsed.
   */
  lemma RememberedValueReadsBack(c: Config, query: string, st: Store, now: nat, later: nat)
    requires query != "" && st.readable && st.writable
    ensures var r := GetUtmValue(c, Some(query), st, now);
            GetStoredUtm(c, r.storage, later) == StoredUtm(Some(query), later - now > WindowMs(c))
  {
    var r := GetUtmValue(c, Some(query), st, now);
    StorageKeysDiffer(c);
    ParseIntOfNatToString(now);
    assert Get(r.storage, UtmStorageKey(c)) == Some(query);
    assert Get(r.storage, TimeStorageKey) == Some(NatToString(now));
  }

  /**
   On a later visit without a query parameter, the remembered value is used while
   `later - now` is at most the window (the boundary itself still counts), and
   nothing is used afterwards.
   */
  lemma LaterVisitWithinWindow(c: Config, query: string, st: Store, now: nat, later: nat)
    requires query != "" && st.readable && st.writable
    ensures var stored := GetUtmValue(c, Some(query), st, now).storage;
            GetUtmValue(c, None, stored, later).value
              == (if later - now <= WindowMs(c) then Some(query) else None)
  {
    RememberedValueReadsBack(c, query, st, now, later);
  }

  /** An expired record is treated exactly like having no record at all. */
  lemma ExpiredRecordIsAbsent(c: Config, query: Option<string>, st: Store, now: nat)
    requires GetStoredUtm(c, st, now).expired
    ensures GetUtmValue(c, query, st, now).value
              == GetUtmValue(c, query, st.(entries := map[]), now).value
  {
  }

  /**
   A timestamp that `parseInt` reads as NaN makes a remembered value immortal:
   it is used at every time `now`, however far from its capture.
   */
  lemma MalformedTimestampNeverExpires(c: Config, st: Store, now: nat)
    requires st.readable
    requires UtmStorageKey(c) in st.entries && st.entries[UtmStorageKey(c)] != ""
    requires TimeStorageKey in st.entries && st.entries[TimeStorageKey] != ""
    requires ParseInt(st.entries[TimeStorageKey]).None?
    ensures GetUtmValue(c, None, st, now).value == Some(st.entries[UtmStorageKey(c)])
  {
  }

  /** A word in place of the timestamp is such a NaN timestamp. */
  lemma WordTimestampNeverExpires(c: Config, st: Store, value: string, now: nat)
    requires value != "" && st.readable
    requires st.entries == map[UtmStorageKey(c) := value, TimeStorageKey := "not-a-time"]
    ensures GetUtmValue(c, None, st, now).value == Some(value)
  {
    StorageKeysDiffer(c);
    ParseIntNaN("not-a-time");
    MalformedTimestampNeverExpires(c, st, now);
  }

  /** A time written by `Date.now().toString()` expires exactly when more than the window has passed since. */
  lemma WrittenTimeExpiresIff(c: Config, captured: nat, now: nat)
    ensures IsExpired(c, NatToString(captured), now) <==> now - captured > WindowMs(c)
  {
    ParseIntOfNatToString(captured);
  }

  /** A readable store holding exactly a value and a time gives both back to `getStoredUtm`. */
  lemma StoredRecordReads(c: Config, st: Store, value: string, time: string, now: nat)
    requires st.readable && value != "" && time != ""
    requires st.entries == map[UtmStorageKey(c) := value, TimeStorageKey := time]
    ensures GetStoredUtm(c, st, now) == StoredUtm(Some(value), IsExpired(c, time, now))
  {
    StorageKeysDiffer(c);
    assert Get(st, UtmStorageKey(c)) == Some(value);
    assert Get(st, TimeStorageKey) == Some(time);
  }

  /**
   The 40-days-ago example: under a 30-day window, the shipped `utmPersistDays`,
   a value captured 40 days before `now` is expired.
   */
  lemma FortyDayOldRecordExpires(c: Config, st: Store, now: nat)
    requires c.utmPersistDays == 30
    requires now >= 40 * MsPerDay && st.readable
    requires st.entries == map[UtmStorageKey(c) := "facebook", TimeStorageKey := NatToString(now - 40 * MsPerDay)]
    ensures GetUtmValue(c, None, st, now).value == None
  {
    var captured: nat := now - 40 * MsPerDay;
    assert WindowMs(c) == 30 * MsPerDay;
    WrittenTimeExpiresIff(c, captured, now);
    StoredRecordReads(c, st, "facebook", NatToString(captured), now);
    ExpiredRecordIsAbsent(c, None, st, now);
  }
}

=== FILE: js_string.dfy ===
/**
 The small pieces of JavaScript string semantics the script relies on:
 whitespace as `String.prototype.trim` and `parseInt` see it, the truthiness of
 strings, `indexOf(p) === 0`, `parseInt` on a decimal timestamp and
 `Number.prototype.toString` on a non-negative integer.
 */
module JsString {
  import opened Wrappers

  /** The WhiteSpace and LineTerminator code points of ECMA-262 (sections 12.2 and 12.3),
      which `trim` removes and `parseInt` skips. */
  predicate IsWhitespace(c: char) {
    || c == '\t' || c == '\U{000B}' || c == '\U{000C}' || c == ' ' || c == '\U{00A0}'
    || c == '\U{FEFF}' || c == '\U{1680}' || ('\U{2000}' <= c <= '\U{200A}')
    || c == '\U{202F}' || c == '\U{205F}' || c == '\U{3000}'
    || c == '\n' || c == '\r' || c == '\U{2028}' || c == '\U{2029}'
  }

  /** The characters matched by the regular expression class `\d` (no `u` flag). */
  predicate IsDigit(c: char) {
    '0' <= c <= '9'
  }

  predicate AllDigits(s: string) {
    forall i :: 0 <= i < |s| ==> IsDigit(s[i])
  }

  /** True iff `s` contains a character that is not whitespace. */
  predicate HasVisibleText(s: string) {
    exists i :: 0 <= i < |s| && !IsWhitespace(s[i])
  }

  /** `s.indexOf(p) === 0`. */
  predicate StartsWith(s: string, p: string) {
    |p| <= |s| && s[..|p|] == p
  }

  /** Removes leading whitespace. */
  function TrimStart(s: string): (r: string)
    ensures |r| <= |s| && r == s[|s| - |r|..]
    ensures forall i :: 0 <= i < |s| - |r| ==> IsWhitespace(s[i])
    ensures r == [] || !IsWhitespace(r[0])
  {
    if s != [] && IsWhitespace(s[0]) then TrimStart(s[1..]) else s
  }

  /** Removes trailing whitespace. */
  function TrimEnd(s: string): (r: string)
    ensures |r| <= |s| && r == s[..|r|]
    ensures forall i :: |r| <= i < |s| ==> IsWhitespace(s[i])
    ensures r == [] || !IsWhitespace(r[|r| - 1])
  {
    if s != [] && IsWhitespace(s[|s| - 1]) then TrimEnd(s[..|s| - 1]) else s
  }

  /** `String.prototype.trim`. */
  function Trim(s: string): string {
    TrimEnd(TrimStart(s))
  }

  /** A string is truthy after trimming exactly when it holds a non-whitespace character. */
  lemma TrimNonEmptyIff(s: string)
    ensures Trim(s) != [] <==> HasVisibleText(s)
  {
  }

  /** The longest prefix of `s` made of decimal digits. */
  function LeadingDigits(s: string): (r: string)
    ensures |r| <= |s| && r == s[..|r|]
    ensures AllDigits(r)
    ensures |r| < |s| ==> !IsDigit(s[|r|])
  {
    if s != [] && IsDigit(s[0]) then [s[0]] + LeadingDigits(s[1..]) else []
  }

  function DigitValue(c: char): nat
    requires IsDigit(c)
  {
    (c - '0') as nat
  }

  /** The value of a string of decimal digits, most significant first. */
  function DigitsValue(d: string): nat
    requires AllDigits(d)
  {
    if d == [] then 0 else DigitsValue(d[..|d| - 1]) * 10 + DigitValue(d[|d| - 1])
  }

  /**
   `parseInt(s)` with no radix, for decimal input: leading whitespace is skipped,
   one sign is accepted, and the longest run of digits is read. `None` is NaN.
   */
  function ParseInt(s: string): Option<int> {
    ParseTrimmed(TrimStart(s))
  }

  /** `parseInt` on a string that no longer starts with whitespace. */
  function ParseTrimmed(t: string): Option<int> {
    var d := LeadingDigits(SkipSign(t));
    if d == [] then None
    else if t[0] == '-' then Some(-(DigitsValue(d) as int))
    else Some(DigitsValue(d))
  }

  /** On a run of decimal digits `parseInt` gives their value. */
  lemma ParseIntDigits(s: string)
    requires s != [] && AllDigits(s)
    ensures ParseInt(s) == Some(DigitsValue(s))
  {
    assert TrimStart(s) == s;
    assert SkipSign(s) == s;
    LeadingDigitsOfDigits(s);
  }

  /** On a sign followed by a run of decimal digits `parseInt` gives their signed value. */
  lemma ParseIntSigned(s: string)
    requires |s| >= 2 && (s[0] == '-' || s[0] == '+') && AllDigits(s[1..])
    ensures s[0] == '-' ==> ParseInt(s) == Some(-(DigitsValue(s[1..]) as int))
    ensures s[0] == '+' ==> ParseInt(s) == Some(DigitsValue(s[1..]))
  {
    assert TrimStart(s) == s;
    assert SkipSign(s) == s[1..];
    LeadingDigitsOfDigits(s[1..]);
  }

  /** A string that starts with neither whitespace, a sign nor a digit parses to NaN. */
  lemma ParseIntNaN(s: string)
    requires s == [] || (!IsWhitespace(s[0]) && !IsDigit(s[0]) && s[0] != '-' && s[0] != '+')
    ensures ParseInt(s).None?
  {
    if s != [] {
      assert TrimStart(s) == s;
      assert SkipSign(s) == s;
    }
  }

  /** `parseInt` skips leading whitespace. */
  lemma ParseIntSkipsWhitespace(c: char, s: string)
    requires IsWhitespace(c)
    ensures ParseInt([c] + s) == ParseInt(s)
  {
    var t := [c] + s;
    assert t[1..] == s;
    assert TrimStart(t) == TrimStart(s) by {
      assert t != [] && IsWhitespace(t[0]);
    }
  }

  function SkipSign(t: string): string {
    if t != [] && (t[0] == '-' || t[0] == '+') then t[1..] else t
  }

  function DigitChar(d: nat): (c: char)
    requires d < 10
    ensures IsDigit(c) && DigitValue(c) == d
  {
    ('0' as int + d) as char
  }

  /** `Number.prototype.toString()` on a non-negative integer: decimal, no leading zeros. */
  function NatToString(n: nat): (r: string)
    ensures |r| >= 1 && AllDigits(r)
    ensures r[0] == '0' ==> r == "0"
  {
    if n < 10 then [DigitChar(n)] else NatToString(n / 10) + [DigitChar(n % 10)]
  }

  lemma {:induction false} DigitsValueOfNatToString(n: nat)
    ensures DigitsValue(NatToString(n)) == n
  {
    var s := NatToString(n);
    if n >= 10 {
      DigitsValueOfNatToString(n / 10);
      assert s[..|s| - 1] == NatToString(n / 10);
    }
  }

  lemma LeadingDigitsOfDigits(s: string)
    requires AllDigits(s)
    ensures LeadingDigits(s) == s
  {
  }

  /** Reading back a written timestamp gives the number that was written. */
  lemma ParseIntOfNatToString(n: nat)
    ensures ParseInt(NatToString(n)) == Some(n)
  {
    var s := NatToString(n);
    assert !IsWhitespace(s[0]);
    assert TrimStart(s) == s;
    assert SkipSign(s) == s;
    LeadingDigitsOfDigits(s);
    DigitsValueOfNatToString(n);
  }
}

=== FILE: local_storage.dfy ===
/**
 `localStorage` behind the script's `safeLocalStorageGet` / `safeLocalStorageSet`:
 string entries, where an access that throws reads as absent and a write that
 throws is silently lost.
 */
module LocalStorage {
  import opened Wrappers

  /** `readable` / `writable` are false when the browser refuses the access. */
  datatype Store = Store(entries: map<string, string>, readable: bool, writable: bool)

  /** `safeLocalStorageGet`: the entry, or `None` when absent or when reading throws. */
  function Get(st: Store, key: string): (r: Option<string>)
    ensures r.Some? <==> st.readable && key in st.entries
    ensures r.Some? ==> r.value == st.entries[key]
  {
    if st.readable && key in st.entries then Some(st.entries[key]) else None
  }

  /** `safeLocalStorageSet`: stores the entry, or leaves storage as it was when writing throws. */
  function Set(st: Store, key: string, value: string): (r: Store)
    ensures r.readable == st.readable && r.writable == st.writable
    ensures st.writable ==> key in r.entries && r.entries[key] == value
    ensures forall k :: k != key ==> Get(r, k) == Get(st, k)
    ensures !st.writable ==> r == st
  {
    if st.writable then st.(entries := st.entries[key := value]) else st
  }
}

=== FILE: phone.dfy ===
/** `cleanPhone`: the digits of a phone number, as written into `tel:` links. */
module Phone {
  import opened JsString

  /**
   Keeps exactly the decimal digits of `phone`, in their original order
   (`phone.replace(/\D/g, '')`); the empty string gives the empty string.
   */
  function CleanPhone(phone: string): (r: string)
    ensures AllDigits(r)
    ensures |r| <= |phone|
    ensures AllDigits(phone) ==> r == phone
  {
    if phone == [] then []
    else
      var head := if IsDigit(phone[0]) then [phone[0]] else [];
      assert phone == [phone[0]] + phone[1..];
      head + CleanPhone(phone[1..])
  }

  /** Every digit occurs in the result as often as in the input, and nothing else occurs. */
  lemma {:induction false} CleanPhoneKeepsDigits(phone: string)
    ensures forall c :: multiset(CleanPhone(phone))[c] == (if IsDigit(c) then multiset(phone)[c] else 0)
  {
    if phone != [] {
      CleanPhoneKeepsDigits(phone[1..]);
      assert phone == [phone[0]] + phone[1..];
    }
  }

  /** Cleaning distributes over concatenation, so the digits keep their relative order. */
  lemma {:induction false} CleanPhoneConcat(a: string, b: string)
    ensures CleanPhone(a + b) == CleanPhone(a) + CleanPhone(b)
  {
    if a == [] {
      assert a + b == b;
    } else {
      assert (a + b)[1..] == a[1..] + b;
      CleanPhoneConcat(a[1..], b);
    }
  }

  /** A one-character string keeps its character exactly when it is a digit. */
  lemma CleanPhoneSingle(c: char)
    ensures CleanPhone([c]) == (if IsDigit(c) then [c] else [])
  {
  }

  /** Cleaning an already clean number changes nothing. */
  lemma CleanPhoneIdempotent(phone: string)
    ensures CleanPhone(CleanPhone(phone)) == CleanPhone(phone)
  {
  }
}

=== FILE: processed_set.dfy ===
/** `createSet`: the insertion-ordered list of items behind the per-selector processed registry. */
module ProcessedSet {

  /** No item occurs twice. */
  predicate Distinct<T(==,!new)>(s: seq<T>) {
    forall i, j :: 0 <= i < j < |s| ==> s[i] != s[j]
  }

  /** The `items` array of one set created by `createSet`. */
  datatype ItemSet<T(==,!new)> = ItemSet(items: seq<T>) {

    /** The items as a mathematical set. */
    function Elements(): set<T> {
      set x | x in items
    }

    /** `has(item)` as a value: some stored item is `item`. */
    predicate Contains(x: T) {
      x in items
    }

    /** `has(item)`: a linear scan that stops at the first equal item. */
    method Has(x: T) returns (b: bool)
      ensures b <==> Contains(x)
    {
      var i := 0;
      while i < |items|
        invariant 0 <= i <= |items|
        invariant forall k :: 0 <= k < i ==> items[k] != x
      {
        if items[i] == x {
          return true;
        }
        i := i + 1;
      }
      return false;
    }

    /** `add(item)`: appends `item` unless it is already present. */
    function Add(x: T): (r: ItemSet<T>)
      ensures r.Contains(x)
      ensures Contains(x) ==> r == this
      ensures forall y :: y != x ==> (r.Contains(y) <==> Contains(y))
      ensures r.Elements() == Elements() + {x}
      ensures Distinct(items) ==> Distinct(r.items)
      ensures |items| <= |r.items| && r.items[..|items|] == items
    {
      if x in items then this else ItemSet(items + [x])
    }
  }

  /** A set fresh from `createSet`. */
  function Empty<T(==,!new)>(): (r: ItemSet<T>)
    ensures r.Elements() == {}
  {
    ItemSet([])
  }
}

=== FILE: resolver.dfy ===
/**
 Number resolution (`getPhoneForSelector`): the selector's number for the
 attribution, else the selector's default, else the global fallback. Every
 lookup goes through JavaScript truthiness, so an empty entry counts as missing.
 */
module Resolver {
  import opened Wrappers
  import opened Settings
  import JsString

  /** The `type` field of the result. */
  datatype Tier = UtmMatch | SelectorDefault | GlobalFallback

  /** The object `getPhoneForSelector` returns: `{number, source, type}`. */
  datatype PhoneData = PhoneData(number: string, source: string, tier: Tier)

  /** The first tier applies: a truthy attribution with a truthy entry in the selector's table. */
  predicate HasUtmMatch(c: Config, selector: string, utm: Option<string>) {
    && utm.Some? && utm.value != ""
    && selector in c.selectorMappings
    && utm.value in c.selectorMappings[selector]
    && c.selectorMappings[selector][utm.value] != ""
  }

  /** The second tier applies: a truthy default for the selector. */
  predicate HasDefault(c: Config, selector: string) {
    selector in c.selectorDefaults && c.selectorDefaults[selector] != ""
  }

  /** `getPhoneForSelector`, with the attribution passed in. */
  function GetPhoneForSelector(c: Config, selector: string, utm: Option<string>): (r: PhoneData)
    ensures r.tier == UtmMatch <==> HasUtmMatch(c, selector, utm)
    ensures r.tier == SelectorDefault <==> !HasUtmMatch(c, selector, utm) && HasDefault(c, selector)
    ensures r.tier == UtmMatch ==> r.number == c.selectorMappings[selector][utm.value] && r.source == utm.value
    ensures r.tier == SelectorDefault ==> r.number == c.selectorDefaults[selector] && r.source == "selector-default"
    ensures r.tier == GlobalFallback ==> r.number == c.globalFallback && r.source == "global-fallback"
    ensures r.tier != GlobalFallback ==> r.number != ""
  {
    if utm.Some? && utm.value != "" && selector in c.selectorMappings
       && utm.value in c.selectorMappings[selector] && c.selectorMappings[selector][utm.value] != "" then
      PhoneData(c.selectorMappings[selector][utm.value], utm.value, UtmMatch)
    else if selector in c.selectorDefaults && c.selectorDefaults[selector] != "" then
      PhoneData(c.selectorDefaults[selector], "selector-default", SelectorDefault)
    else
      PhoneData(c.globalFallback, "global-fallback", GlobalFallback)
  }

  /**
   An empty-string entry for the attribution does not match: the result is the
   one an absent attribution would give.
   */
  lemma EmptyEntryFallsThrough(c: Config, selector: string, utm: string)
    requires selector in c.selectorMappings && utm in c.selectorMappings[selector]
    requires c.selectorMappings[selector][utm] == ""
    ensures GetPhoneForSelector(c, selector, Some(utm)) == GetPhoneForSelector(c, selector, None)
  {
  }

  /**
   The result depends only on this selector's table, this selector's default and
   the global fallback: other selectors' entries never matter.
   */
  lemma ResolutionIsLocal(c: Config, d: Config, selector: string, utm: Option<string>)
    requires (selector in c.selectorMappings) == (selector in d.selectorMappings)
    requires selector in c.selectorMappings ==> c.selectorMappings[selector] == d.selectorMappings[selector]
    requires (selector in c.selectorDefaults) == (selector in d.selectorDefaults)
    requires selector in c.selectorDefaults ==> c.selectorDefaults[selector] == d.selectorDefaults[selector]
    requires c.globalFallback == d.globalFallback
    ensures GetPhoneForSelector(c, selector, utm) == GetPhoneForSelector(d, selector, utm)
  {
  }

  /**
   Every number the shipped configuration can give a shipped selector begins
   with `+`, so it always has a visible character.
   */
  lemma ShippedNumberVisible(selector: string, utm: Option<string>)
    requires selector in ShippedConfig.selectors
    ensures JsString.HasVisibleText(GetPhoneForSelector(ShippedConfig, selector, utm).number)
  {
    var n := GetPhoneForSelector(ShippedConfig, selector, utm).number;
    assert n[0] == '+';
  }

  /** With the shipped configuration, `?utm_source=google` gives the header its Google number. */
  lemma ShippedHeaderGoogle()
    ensures GetPhoneForSelector(ShippedConfig, ".header-phone", Some("google"))
              == PhoneData("+1 (555) 100-1111", "google", UtmMatch)
  {
  }

  /** With the shipped configuration and no attribution, the header shows its default. */
  lemma ShippedHeaderNoAttribution()
    ensures GetPhoneForSelector(ShippedConfig, ".header-phone", None)
              == PhoneData("+1 (555) 100-0000", "selector-default", SelectorDefault)
  {
  }
}

=== FILE: settings.dfy ===
/** The script's configuration record and the storage keys derived from it. */
module Settings {
  import ProcessedSet

  /** The attribution parameters the configuration allows. */
  datatype UtmParameter = Source | Medium | Campaign | Term | Content

  function ParameterName(p: UtmParameter): string {
    match p
    case Source => "source"
    case Medium => "medium"
    case Campaign => "campaign"
    case Term => "term"
    case Content => "content"
  }

  /**
   The configuration object. `selectors` is `Object.keys(selectorMappings)`:
   the order in which the update pass visits the selectors.
   */
  datatype Config = Config(
    utmParameter: UtmParameter,
    selectors: seq<string>,
    selectorMappings: map<string, map<string, string>>,
    selectorDefaults: map<string, string>,
    globalFallback: string,
    utmPersistDays: nat,
    updateLinks: bool,
    watchDynamicContent: bool,
    debugMode: bool)

  /** `Object.keys` lists each own key once, and exactly the keys of the mapping table. */
  predicate Consistent(c: Config) {
    && ProcessedSet.Distinct(c.selectors)
    && (forall s :: s in c.selectors ==> s in c.selectorMappings)
    && (forall s :: s in c.selectorMappings ==> s in c.selectors)
  }

  /** Milliseconds in a day, `1000 * 60 * 60 * 24`. */
  const MsPerDay: nat := 1000 * 60 * 60 * 24

  /** The persistence window in milliseconds. */
  function WindowMs(c: Config): nat {
    c.utmPersistDays * MsPerDay
  }

  /** Storage key of the remembered attribution value. */
  function UtmStorageKey(c: Config): string {
    "phoneSwapper_utm_" + ParameterName(c.utmParameter)
  }

  /** Storage key of the capture time. */
  const TimeStorageKey: string := "phoneSwapper_time"

  lemma StorageKeysDiffer(c: Config)
    ensures UtmStorageKey(c) != TimeStorageKey
  {
  }

  /**
   The shipped configuration lists each of its five selectors once, has a
   non-empty default for each, remembers the attribution for 30 days, and
   rewrites links.
   */
  lemma ShippedConfigShape()
    ensures Consistent(ShippedConfig)
    ensures |ShippedConfig.selectors| == 5 && ShippedConfig.selectors[4] == ".phone"
    ensures forall s :: s in ShippedConfig.selectors ==>
              s in ShippedConfig.selectorDefaults && ShippedConfig.selectorDefaults[s] != ""
    ensures WindowMs(ShippedConfig) == 30 * MsPerDay
    ensures UtmStorageKey(ShippedConfig) == "phoneSwapper_utm_source"
    ensures ShippedConfig.updateLinks && ShippedConfig.watchDynamicContent && !ShippedConfig.debugMode
  {
  }

  /** The configuration shipped with the script. */
  const ShippedConfig: Config := Config(
    Source,
    [".header-phone", ".footer-phone", "#contact-phone", ".cta-phone-link", ".phone"],
    map[
      ".header-phone" := map["google" := "+1 (555) 100-1111", "facebook" := "+1 (555) 100-2222", "linkedin" := "+1 (555) 100-3333"],
      ".footer-phone" := map["google" := "+1 (555) 200-1111", "facebook" := "+1 (555) 200-2222", "linkedin" := "+1 (555) 200-3333"],
      "#contact-phone" := map["google" := "+1 (555) 300-1111", "facebook" := "+1 (555) 300-2222", "linkedin" := "+1 (555) 300-3333"],
      ".cta-phone-link" := map["google" := "+1 (555) 400-1111", "facebook" := "+1 (555) 400-2222", "linkedin" := "+1 (555) 400-3333"],
      ".phone" := map["google" := "+1 (555) 500-1111", "facebook" := "+1 (555) 500-2222", "linkedin" := "+1 (555) 500-3333"]
    ],
    map[
      ".header-phone" := "+1 (555) 100-0000",
      ".footer-phone" := "+1 (555) 200-0000",
      "#contact-phone" := "+1 (555) 300-0000",
      ".cta-phone-link" := "+1 (555) 400-0000",
      ".phone" := "+1 (555) 500-0000"
    ],
    "+1 (555) 000-0000",
    30,
    true,
    true,
    false)
}

=== FILE: updater.dfy ===
/**
 The update pass (`updatePhoneElements`) over an abstract document: for every
 configured selector, every matching element that selector has not processed
 yet gets the resolved number written into its text and `tel:` link, and is
 recorded as processed.
 */
module Updater {
  import opened Wrappers
  import opened JsString
  import opened Settings
  import opened LocalStorage
  import opened ProcessedSet
  import Phone
  import Attribution
  import Resolver

  /** Element identity (the object identity `has` compares with `===`). */
  type ElementId = nat

  /** The parts of a DOM element the pass reads and writes. */
  datatype Element = Element(text: string, isAnchor: bool, href: Option<string>)

  /**
   `elements` holds every element; `matches[s]` is what `querySelectorAll(s)`
   returns, in document order. A selector absent from `matches` is one that
   `querySelectorAll` rejects by throwing.
   */
  datatype Document = Document(elements: map<ElementId, Element>, matches: map<string, seq<ElementId>>)

  /** `querySelectorAll` only returns elements of the document. */
  predicate WellFormed(d: Document) {
    forall s, i :: s in d.matches && 0 <= i < |d.matches[s]| ==> d.matches[s][i] in d.elements
  }

  /** The `processed` object: one processed set per selector. */
  type Registry = map<string, ItemSet<ElementId>>

  /** The processed set of a selector; a selector with none behaves like a fresh set. */
  function SeenFor(reg: Registry, selector: string): ItemSet<ElementId> {
    if selector in reg then reg[selector] else Empty()
  }

  /** The `href` written into links: `'tel:' + cleanPhone(number)`. */
  function TelHref(number: string): string {
    "tel:" + Phone.CleanPhone(number)
  }

  /** `element.href && element.href.indexOf('tel:') === 0`. */
  predicate HasTelHref(e: Element) {
    e.href.Some? && e.href.value != "" && StartsWith(e.href.value, "tel:")
  }

  /**
   The writes to one unprocessed element: its text is replaced only when it has
   a visible character, and its link is rewritten when links are updated and it
   is an anchor or already links to `tel:`. Nothing else changes.
   */
  function UpdateElement(e: Element, number: string, updateLinks: bool): (r: Element)
    ensures r.isAnchor == e.isAnchor
    ensures r.text == (if HasVisibleText(e.text) then number else e.text)
    ensures r.href == (if updateLinks && (e.isAnchor || HasTelHref(e)) then Some(TelHref(number)) else e.href)
  {
    TrimNonEmptyIff(e.text);
    var e1 := if Trim(e.text) != "" then e.(text := number) else e;
    var e2 := if updateLinks && e1.isAnchor then e1.(href := Some(TelHref(number))) else e1;
    if updateLinks && e2.href.Some? && e2.href.value != "" && StartsWith(e2.href.value, "tel:") then
      e2.(href := Some(TelHref(number)))
    else
      e2
  }

  /** Writing the same number twice leaves the element as one write did. */
  lemma UpdateElementIdempotent(e: Element, number: string, updateLinks: bool)
    ensures UpdateElement(UpdateElement(e, number, updateLinks), number, updateLinks)
              == UpdateElement(e, number, updateLinks)
  {
  }

  /** The elements of `ids` not yet in `seen`. */
  function Fresh(ids: seq<ElementId>, seen: ItemSet<ElementId>): set<ElementId> {
    (set x | x in ids) - seen.Elements()
  }

  lemma FreshCons(ids: seq<ElementId>, seen: ItemSet<ElementId>)
    requires ids != []
    ensures (set x | x in ids) == {ids[0]} + (set x | x in ids[1..])
    ensures seen.Contains(ids[0]) ==> Fresh(ids, seen) == Fresh(ids[1..], seen)
    ensures !seen.Contains(ids[0]) ==>
              && Fresh(ids, seen) == {ids[0]} + Fresh(ids[1..], seen.Add(ids[0]))
              && ids[0] !in Fresh(ids[1..], seen.Add(ids[0]))
  {
  }

  /** The state of the inner loop over one selector's elements. */
  datatype Sweep = Sweep(elements: map<ElementId, Element>, seen: ItemSet<ElementId>, count: nat)

  /**
   The inner loop of the pass over the elements `ids` of one selector: every
   element not yet seen is written once, added to the set and counted, even if
   the write changed nothing; every other element is left as it was.
   */
  function SweepElements(ids: seq<ElementId>, elements: map<ElementId, Element>, seen: ItemSet<ElementId>,
                         number: string, updateLinks: bool): (r: Sweep)
    requires forall i :: 0 <= i < |ids| ==> ids[i] in elements
    ensures r.elements.Keys == elements.Keys
    ensures r.seen.Elements() == seen.Elements() + (set x | x in ids)
    decreases |ids|
  {
    if ids == [] then
      Sweep(elements, seen, 0)
    else
      var id := ids[0];
      FreshCons(ids, seen);
      if seen.Contains(id) then
        SweepElements(ids[1..], elements, seen, number, updateLinks)
      else
        var written := elements[id := UpdateElement(elements[id], number, updateLinks)];
        var rest := SweepElements(ids[1..], written, seen.Add(id), number, updateLinks);
        Sweep(rest.elements, rest.seen, rest.count + 1)
  }

  /**
   Exactly the unseen elements are written by a sweep, each once, with the
   selector's number; every other element is left as it was.
   */
  lemma {:induction false} SweepWritesFresh(ids: seq<ElementId>, elements: map<ElementId, Element>,
                                            seen: ItemSet<ElementId>, number: string, updateLinks: bool)
    requires forall i :: 0 <= i < |ids| ==> ids[i] in elements
    ensures var r := SweepElements(ids, elements, seen, number, updateLinks);
            forall id :: id in elements ==>
              r.elements[id] == (if id in Fresh(ids, seen) then UpdateElement(elements[id], number, updateLinks)
                                 else elements[id])
    decreases |ids|
  {
    if ids != [] {
      var id := ids[0];
      FreshCons(ids, seen);
      if seen.Contains(id) {
        SweepWritesFresh(ids[1..], elements, seen, number, updateLinks);
      } else {
        var written := elements[id := UpdateElement(elements[id], number, updateLinks)];
        SweepWritesFresh(ids[1..], written, seen.Add(id), number, updateLinks);
      }
    }
  }

  /** A sweep counts each unseen element once. */
  lemma {:induction false} SweepCountsFresh(ids: seq<ElementId>, elements: map<ElementId, Element>,
                                            seen: ItemSet<ElementId>, number: string, updateLinks: bool)
    requires forall i :: 0 <= i < |ids| ==> ids[i] in elements
    ensures SweepElements(ids, elements, seen, number, updateLinks).count == |Fresh(ids, seen)|
    decreases |ids|
  {
    if ids != [] {
      var id := ids[0];
      FreshCons(ids, seen);
      if seen.Contains(id) {
        SweepCountsFresh(ids[1..], elements, seen, number, updateLinks);
      } else {
        var written := elements[id := UpdateElement(elements[id], number, updateLinks)];
        SweepCountsFresh(ids[1..], written, seen.Add(id), number, updateLinks);
      }
    }
  }

  /** A sweep that finds nothing new changes nothing. */
  lemma {:induction false} SweepNothingFresh(ids: seq<ElementId>, elements: map<ElementId, Element>,
                                             seen: ItemSet<ElementId>, number: string, updateLinks: bool)
    requires forall i :: 0 <= i < |ids| ==> ids[i] in elements
    requires Fresh(ids, seen) == {}
    ensures SweepElements(ids, elements, seen, number, updateLinks) == Sweep(elements, seen, 0)
    decreases |ids|
  {
    if ids != [] {
      FreshCons(ids, seen);
      SweepNothingFresh(ids[1..], elements, seen, number, updateLinks);
    }
  }

  // ----- The pass over all selectors -----

  /** Storage that one more `getUtmValue` call leaves as it is. */
  predicate Settled(c: Config, query: Option<string>, now: nat, st: Store) {
    Attribution.GetUtmValue(c, query, st, now).storage == st
  }

  /** Every selector of `sels` is one `querySelectorAll` accepts. */
  predicate AllValid(sels: seq<string>, m: map<string, seq<ElementId>>) {
    forall i :: 0 <= i < |sels| ==> sels[i] in m
  }

  /** The variables of the outer loop: document, registry, storage and `totalUpdated`. */
  datatype PassState = PassState(document: Document, processed: Registry, storage: Store, total: nat)

  /** The outer loop's final state, and whether it ran to the end without throwing. */
  datatype Run = Run(state: PassState, completed: bool)

  /**
   One iteration of the outer loop for a selector `querySelectorAll` accepts:
   resolve the attribution again (`getPhoneForSelector` calls `getUtmValue`),
   resolve the number, make sure the selector has a processed set, and sweep.
   */
  function Step(c: Config, query: Option<string>, now: nat, selector: string, st: PassState): (r: PassState)
    requires WellFormed(st.document) && selector in st.document.matches
    ensures r.document.matches == st.document.matches
    ensures r.document.elements.Keys == st.document.elements.Keys
    ensures r.processed.Keys == st.processed.Keys + {selector}
    ensures forall s :: s != selector ==> SeenFor(r.processed, s) == SeenFor(st.processed, s)
    ensures SeenFor(r.processed, selector).Elements()
              == SeenFor(st.processed, selector).Elements() + (set x | x in st.document.matches[selector])
    ensures Settled(c, query, now, st.storage) ==> r.storage == st.storage
  {
    var ids := st.document.matches[selector];
    var attribution := Attribution.GetUtmValue(c, query, st.storage, now);
    var phone := Resolver.GetPhoneForSelector(c, selector, attribution.value);
    var sweep := SweepElements(ids, st.document.elements, SeenFor(st.processed, selector), phone.number, c.updateLinks);
    PassState(st.document.(elements := sweep.elements), st.processed[selector := sweep.seen],
              attribution.storage, st.total + sweep.count)
  }

  /**
   The outer loop over `sels`. A selector `querySelectorAll` rejects throws: the
   loop stops there, and what earlier iterations wrote stays written.
   */
  function RunSelectors(c: Config, query: Option<string>, now: nat, sels: seq<string>, st: PassState): (r: Run)
    requires WellFormed(st.document)
    ensures r.state.document.matches == st.document.matches
    ensures r.state.document.elements.Keys == st.document.elements.Keys
    ensures r.completed <==> AllValid(sels, st.document.matches)
    ensures r.state.total >= st.total
    ensures Settled(c, query, now, st.storage) ==> r.state.storage == st.storage
    decreases |sels|
  {
    if sels == [] then
      Run(st, true)
    else if sels[0] !in st.document.matches then
      Run(st, false)
    else
      RunSelectors(c, query, now, sels[1..], Step(c, query, now, sels[0], st))
  }

  /** The number of elements of each selector in `sels` that the registry `reg` has not seen. */
  function SumFresh(sels: seq<string>, m: map<string, seq<ElementId>>, reg: Registry): nat
    decreases |sels|
  {
    if sels == [] then 0
    else (if sels[0] in m then |Fresh(m[sels[0]], SeenFor(reg, sels[0]))| else 0) + SumFresh(sels[1..], m, reg)
  }

  lemma {:induction false} SumFreshFrame(sels: seq<string>, m: map<string, seq<ElementId>>, reg: Registry, reg2: Registry)
    requires forall s :: s in sels ==> SeenFor(reg, s) == SeenFor(reg2, s)
    ensures SumFresh(sels, m, reg) == SumFresh(sels, m, reg2)
    decreases |sels|
  {
    if sels != [] {
      SumFreshFrame(sels[1..], m, reg, reg2);
    }
  }

  /** With distinct, valid selectors the loop counts every unseen element of every selector. */
  lemma {:induction false} RunSelectorsCount(c: Config, query: Option<string>, now: nat, sels: seq<string>, st: PassState)
    requires WellFormed(st.document) && Distinct(sels) && AllValid(sels, st.document.matches)
    ensures RunSelectors(c, query, now, sels, st).state.total
              == st.total + SumFresh(sels, st.document.matches, st.processed)
    decreases |sels|
  {
    if sels != [] {
      var selector := sels[0];
      var next := Step(c, query, now, selector, st);
      var attribution := Attribution.GetUtmValue(c, query, st.storage, now);
      var phone := Resolver.GetPhoneForSelector(c, selector, attribution.value);
      SweepCountsFresh(st.document.matches[selector], st.document.elements, SeenFor(st.processed, selector),
                       phone.number, c.updateLinks);
      assert Distinct(sels[1..]) && AllValid(sels[1..], st.document.matches);
      RunSelectorsCount(c, query, now, sels[1..], next);
      forall s | s in sels[1..]
        ensures SeenFor(next.processed, s) == SeenFor(st.processed, s)
      {
        assert s != selector;
      }
      SumFreshFrame(sels[1..], st.document.matches, next.processed, st.processed);
    }
  }

  /** Element `id` is new to none of the selectors in `sels`. */
  predicate Untouched(sels: seq<string>, m: map<string, seq<ElementId>>, reg: Registry, id: ElementId) {
    forall i :: 0 <= i < |sels| && sels[i] in m ==> id !in Fresh(m[sels[i]], SeenFor(reg, sels[i]))
  }

  /** An element that no selector sees as new is not written at all. */
  lemma {:induction false} RunSelectorsLeavesUntouched(c: Config, query: Option<string>, now: nat, sels: seq<string>,
                                                       st: PassState, id: ElementId)
    requires WellFormed(st.document) && id in st.document.elements
    requires Untouched(sels, st.document.matches, st.processed, id)
    ensures RunSelectors(c, query, now, sels, st).state.document.elements[id] == st.document.elements[id]
    decreases |sels|
  {
    if sels != [] && sels[0] in st.document.matches {
      var selector := sels[0];
      var next := Step(c, query, now, selector, st);
      var attribution := Attribution.GetUtmValue(c, query, st.storage, now);
      var phone := Resolver.GetPhoneForSelector(c, selector, attribution.value);
      SweepWritesFresh(st.document.matches[selector], st.document.elements, SeenFor(st.processed, selector),
                       phone.number, c.updateLinks);
      assert next.document.elements[id] == st.document.elements[id];
      forall i | 0 <= i < |sels[1..]| && sels[1..][i] in next.document.matches
        ensures id !in Fresh(next.document.matches[sels[1..][i]], SeenFor(next.processed, sels[1..][i]))
      {
        assert sels[1..][i] == sels[i + 1];
      }
      RunSelectorsLeavesUntouched(c, query, now, sels[1..], next, id);
    }
  }

  /** No element ever stops or starts being an anchor. */
  lemma {:induction false} RunSelectorsKeepsAnchors(c: Config, query: Option<string>, now: nat, sels: seq<string>,
                                                    st: PassState, id: ElementId)
    requires WellFormed(st.document) && id in st.document.elements
    ensures RunSelectors(c, query, now, sels, st).state.document.elements[id].isAnchor
              == st.document.elements[id].isAnchor
    decreases |sels|
  {
    if sels != [] && sels[0] in st.document.matches {
      var selector := sels[0];
      var attribution := Attribution.GetUtmValue(c, query, st.storage, now);
      var phone := Resolver.GetPhoneForSelector(c, selector, attribution.value);
      SweepWritesFresh(st.document.matches[selector], st.document.elements, SeenFor(st.processed, selector),
                       phone.number, c.updateLinks);
      RunSelectorsKeepsAnchors(c, query, now, sels[1..], Step(c, query, now, selector, st), id);
    }
  }

  /**
   Every selector the loop reaches before a rejected one has a processed set
   that already holds all of its matches.
   */
  predicate Saturated(sels: seq<string>, m: map<string, seq<ElementId>>, reg: Registry)
    decreases |sels|
  {
    || sels == []
    || sels[0] !in m
    || (sels[0] in reg && Fresh(m[sels[0]], reg[sels[0]]) == {} && Saturated(sels[1..], m, reg))
  }

  /** Saturation survives a registry that keeps every key and set and only grows. */
  lemma {:induction false} SaturatedGrows(sels: seq<string>, m: map<string, seq<ElementId>>, reg: Registry, reg2: Registry)
    requires Saturated(sels, m, reg)
    requires reg.Keys <= reg2.Keys
    requires forall s :: SeenFor(reg, s).Elements() <= SeenFor(reg2, s).Elements()
    ensures Saturated(sels, m, reg2)
    decreases |sels|
  {
    if sels != [] && sels[0] in m {
      assert SeenFor(reg, sels[0]) == reg[sels[0]] && SeenFor(reg2, sels[0]) == reg2[sels[0]];
      SaturatedGrows(sels[1..], m, reg, reg2);
    }
  }

  /**
   After the loop, the registry has only grown, and every selector reached holds
   all of its matches.
   */
  lemma {:induction false} RunSelectorsSaturates(c: Config, query: Option<string>, now: nat, sels: seq<string>, st: PassState)
    requires WellFormed(st.document)
    ensures var r := RunSelectors(c, query, now, sels, st).state;
            && st.processed.Keys <= r.processed.Keys
            && (forall s :: SeenFor(st.processed, s).Elements() <= SeenFor(r.processed, s).Elements())
            && Saturated(sels, st.document.matches, r.processed)
    decreases |sels|
  {
    if sels != [] && sels[0] in st.document.matches {
      var next := Step(c, query, now, sels[0], st);
      RunSelectorsSaturates(c, query, now, sels[1..], next);
      var r := RunSelectors(c, query, now, sels, st).state;
      assert SeenFor(next.processed, sels[0]).Elements() <= SeenFor(r.processed, sels[0]).Elements();
    }
  }

  /** On a saturated registry and settled storage, the loop changes nothing and counts nothing. */
  lemma {:induction false} RunSelectorsNoOp(c: Config, query: Option<string>, now: nat, sels: seq<string>, st: PassState)
    requires WellFormed(st.document)
    requires Saturated(sels, st.document.matches, st.processed)
    requires Settled(c, query, now, st.storage)
    ensures RunSelectors(c, query, now, sels, st) == Run(st, AllValid(sels, st.document.matches))
    decreases |sels|
  {
    if sels != [] && sels[0] in st.document.matches {
      var selector := sels[0];
      var attribution := Attribution.GetUtmValue(c, query, st.storage, now);
      var phone := Resolver.GetPhoneForSelector(c, selector, attribution.value);
      SweepNothingFresh(st.document.matches[selector], st.document.elements, st.processed[selector],
                        phone.number, c.updateLinks);
      var next := Step(c, query, now, selector, st);
      assert next.document == st.document;
      assert next.processed == st.processed;
      assert next == st;
      RunSelectorsNoOp(c, query, now, sels[1..], st);
      if AllValid(sels[1..], st.document.matches) {
        assert forall i :: 1 <= i < |sels| ==> sels[i] == sels[1..][i - 1];
      }
    }
  }

  /**
   On a saturated registry the loop writes no element, registers nothing and
   counts nothing, whatever the attribution and storage.
   */
  lemma {:induction false} RunSelectorsSaturatedUnchanged(c: Config, query: Option<string>, now: nat, sels: seq<string>,
                                                          st: PassState)
    requires WellFormed(st.document)
    requires Saturated(sels, st.document.matches, st.processed)
    ensures var r := RunSelectors(c, query, now, sels, st).state;
            r.document == st.document && r.processed == st.processed && r.total == st.total
    decreases |sels|
  {
    if sels != [] && sels[0] in st.document.matches {
      var selector := sels[0];
      var attribution := Attribution.GetUtmValue(c, query, st.storage, now);
      var phone := Resolver.GetPhoneForSelector(c, selector, attribution.value);
      SweepNothingFresh(st.document.matches[selector], st.document.elements, st.processed[selector],
                        phone.number, c.updateLinks);
      var next := Step(c, query, now, selector, st);
      assert next.document == st.document && next.processed == st.processed && next.total == st.total;
      RunSelectorsSaturatedUnchanged(c, query, now, sels[1..], next);
    }
  }

  /**
   An element new to the selector `sels[k]` and matched by no other selector
   ends the loop written with the number resolved for `sels[k]`, from the
   attribution the settled storage gives.
   */
  lemma {:induction false} RunSelectorsWrites(c: Config, query: Option<string>, now: nat, sels: seq<string>,
                                              st: PassState, k: nat, id: ElementId)
    requires WellFormed(st.document) && Settled(c, query, now, st.storage)
    requires k < |sels| && forall j :: 0 <= j <= k ==> sels[j] in st.document.matches
    requires id in st.document.matches[sels[k]] && !SeenFor(st.processed, sels[k]).Contains(id)
    requires forall j :: (0 <= j < |sels| && j != k && sels[j] in st.document.matches)
                           ==> id !in st.document.matches[sels[j]]
    ensures id in st.document.elements
    ensures RunSelectors(c, query, now, sels, st).state.document.elements[id]
              == UpdateElement(st.document.elements[id],
                               Resolver.GetPhoneForSelector(c, sels[k], Attribution.GetUtmValue(c, query, st.storage, now).value).number,
                               c.updateLinks)
    decreases k
  {
    var selector := sels[0];
    var next := Step(c, query, now, selector, st);
    var attribution := Attribution.GetUtmValue(c, query, st.storage, now);
    var phone := Resolver.GetPhoneForSelector(c, selector, attribution.value);
    SweepWritesFresh(st.document.matches[selector], st.document.elements, SeenFor(st.processed, selector),
                     phone.number, c.updateLinks);
    if k == 0 {
      forall i | 0 <= i < |sels[1..]| && sels[1..][i] in next.document.matches
        ensures id !in Fresh(next.document.matches[sels[1..][i]], SeenFor(next.processed, sels[1..][i]))
      {
        assert sels[1..][i] == sels[i + 1];
      }
      RunSelectorsLeavesUntouched(c, query, now, sels[1..], next, id);
    } else {
      assert selector != sels[k];
      assert next.document.elements[id] == st.document.elements[id];
      RunSelectorsWrites(c, query, now, sels[1..], next, k - 1, id);
    }
  }

  /**
   Element `id` as the loop over `sels` leaves it, written out selector by
   selector: each selector reached before a rejected one that finds `id` new
   writes its own number over what the earlier ones wrote.
   */
  function WrittenInOrder(c: Config, value: Option<string>, sels: seq<string>, m: map<string, seq<ElementId>>,
                          reg: Registry, id: ElementId, e: Element): Element
    decreases |sels|
  {
    if sels == [] || sels[0] !in m then e
    else
      var e' := if id in Fresh(m[sels[0]], SeenFor(reg, sels[0]))
                then UpdateElement(e, Resolver.GetPhoneForSelector(c, sels[0], value).number, c.updateLinks)
                else e;
      WrittenInOrder(c, value, sels[1..], m, reg, id, e')
  }

  lemma {:induction false} WrittenInOrderFrame(c: Config, value: Option<string>, sels: seq<string>,
                                               m: map<string, seq<ElementId>>, reg: Registry, reg2: Registry,
                                               id: ElementId, e: Element)
    requires forall s :: s in sels ==> SeenFor(reg, s) == SeenFor(reg2, s)
    ensures WrittenInOrder(c, value, sels, m, reg, id, e) == WrittenInOrder(c, value, sels, m, reg2, id, e)
    decreases |sels|
  {
    if sels != [] && sels[0] in m {
      var e' := if id in Fresh(m[sels[0]], SeenFor(reg, sels[0]))
                then UpdateElement(e, Resolver.GetPhoneForSelector(c, sels[0], value).number, c.updateLinks)
                else e;
      WrittenInOrderFrame(c, value, sels[1..], m, reg, reg2, id, e');
    }
  }

  /**
   With distinct selectors and settled storage, every element ends the loop as
   the selectors it was new to wrote it, in order, each with its own number.
   */
  lemma {:induction false} RunSelectorsWritesInOrder(c: Config, query: Option<string>, now: nat, sels: seq<string>,
                                                     st: PassState, id: ElementId)
    requires WellFormed(st.document) && Settled(c, query, now, st.storage)
    requires Distinct(sels) && id in st.document.elements
    ensures RunSelectors(c, query, now, sels, st).state.document.elements[id]
              == WrittenInOrder(c, Attribution.GetUtmValue(c, query, st.storage, now).value, sels,
                                st.document.matches, st.processed, id, st.document.elements[id])
    decreases |sels|
  {
    if sels != [] && sels[0] in st.document.matches {
      var selector := sels[0];
      var next := Step(c, query, now, selector, st);
      var attribution := Attribution.GetUtmValue(c, query, st.storage, now);
      var phone := Resolver.GetPhoneForSelector(c, selector, attribution.value);
      SweepWritesFresh(st.document.matches[selector], st.document.elements, SeenFor(st.processed, selector),
                       phone.number, c.updateLinks);
      assert Distinct(sels[1..]);
      RunSelectorsWritesInOrder(c, query, now, sels[1..], next, id);
      forall s | s in sels[1..]
        ensures SeenFor(next.processed, s) == SeenFor(st.processed, s)
      {
        assert s != selector;
      }
      WrittenInOrderFrame(c, attribution.value, sels[1..], st.document.matches, next.processed, st.processed,
                          id, next.document.elements[id]);
    }
  }

  /**
   Of two writes, the first with a number that has a visible character, the
   later one is all that shows: a later selector's number overrides an earlier
   selector's.
   */
  lemma LaterWriteWins(e: Element, first: string, second: string, updateLinks: bool)
    requires HasVisibleText(first)
    ensures UpdateElement(UpdateElement(e, first, updateLinks), second, updateLinks)
              == UpdateElement(e, second, updateLinks)
  {
    var e1 := UpdateElement(e, first, updateLinks);
    if updateLinks && (e.isAnchor || HasTelHref(e)) {
      assert StartsWith(TelHref(first), "tel:");
    }
  }

  /**
   A first write whose number is empty or only whitespace leaves text that
   `trim()` finds empty, so a later write no longer touches the text.
   */
  lemma BlankWriteSticks(e: Element, first: string, second: string, updateLinks: bool)
    requires HasVisibleText(e.text) && !HasVisibleText(first)
    ensures UpdateElement(UpdateElement(e, first, updateLinks), second, updateLinks).text == first
  {
  }

  /**
   When every selector before the last gives a number with a visible character, an element new
   to the last selector shows that selector's number, whatever the earlier ones wrote.
   */
  lemma {:induction false} LastSelectorWins(c: Config, value: Option<string>, sels: seq<string>,
                                            m: map<string, seq<ElementId>>, reg: Registry, id: ElementId, e: Element)
    requires sels != [] && AllValid(sels, m)
    requires id in Fresh(m[sels[|sels| - 1]], SeenFor(reg, sels[|sels| - 1]))
    requires forall i :: 0 <= i < |sels| - 1 ==>
               HasVisibleText(Resolver.GetPhoneForSelector(c, sels[i], value).number)
    ensures WrittenInOrder(c, value, sels, m, reg, id, e)
              == UpdateElement(e, Resolver.GetPhoneForSelector(c, sels[|sels| - 1], value).number, c.updateLinks)
    decreases |sels|
  {
    assert sels[0] in m;
    var n0 := Resolver.GetPhoneForSelector(c, sels[0], value).number;
    var e' := if id in Fresh(m[sels[0]], SeenFor(reg, sels[0])) then UpdateElement(e, n0, c.updateLinks) else e;
    if |sels| > 1 {
      var rest := sels[1..];
      assert rest[|rest| - 1] == sels[|sels| - 1];
      forall i | 0 <= i < |rest| - 1
        ensures HasVisibleText(Resolver.GetPhoneForSelector(c, rest[i], value).number)
      {
        assert rest[i] == sels[i + 1];
      }
      assert AllValid(rest, m) by {
        forall i | 0 <= i < |rest| ensures rest[i] in m {
          assert rest[i] == sels[i + 1];
        }
      }
      LastSelectorWins(c, value, rest, m, reg, id, e');
      if id in Fresh(m[sels[0]], SeenFor(reg, sels[0])) {
        LaterWriteWins(e, n0, Resolver.GetPhoneForSelector(c, sels[|sels| - 1], value).number, c.updateLinks);
      }
    }
  }

  // ----- updatePhoneElements -----

  /** The pass's effect and its return value. */
  datatype PassOutcome = PassOutcome(document: Document, processed: Registry, storage: Store, updated: nat)

  /**
   `updatePhoneElements`. The attribution resolved first is only logged; every
   selector resolves it again. A selector that throws ends the pass, which then
   returns 0 although earlier selectors' writes and registrations remain.
   */
  function UpdatePhoneElements(c: Config, query: Option<string>, now: nat, doc: Document, reg: Registry, st: Store)
    : (r: PassOutcome)
    requires WellFormed(doc)
    ensures r.document.matches == doc.matches
    ensures r.document.elements.Keys == doc.elements.Keys
    ensures WellFormed(r.document)
    ensures !AllValid(c.selectors, doc.matches) ==> r.updated == 0
    ensures r.storage == Attribution.GetUtmValue(c, query, st, now).storage
  {
    var logged := Attribution.GetUtmValue(c, query, st, now);
    Attribution.GetUtmValueStable(c, query, st, now);
    var run := RunSelectors(c, query, now, c.selectors, PassState(doc, reg, logged.storage, 0));
    PassOutcome(run.state.document, run.state.processed, run.state.storage,
                if run.completed then run.state.total else 0)
  }

  /** A pass whose selectors all work returns the number of elements each selector had not seen, summed. */
  lemma PassCountsFreshElements(c: Config, query: Option<string>, now: nat, doc: Document, reg: Registry, st: Store)
    requires WellFormed(doc) && Settings.Consistent(c) && AllValid(c.selectors, doc.matches)
    ensures UpdatePhoneElements(c, query, now, doc, reg, st).updated == SumFresh(c.selectors, doc.matches, reg)
  {
    var logged := Attribution.GetUtmValue(c, query, st, now);
    RunSelectorsCount(c, query, now, c.selectors, PassState(doc, reg, logged.storage, 0));
  }

  /** After a pass, every selector it reached has registered every one of its matches. */
  lemma PassRegistersMatches(c: Config, query: Option<string>, now: nat, doc: Document, reg: Registry, st: Store)
    requires WellFormed(doc)
    ensures var r := UpdatePhoneElements(c, query, now, doc, reg, st);
            && reg.Keys <= r.processed.Keys
            && (forall s :: SeenFor(reg, s).Elements() <= SeenFor(r.processed, s).Elements())
            && Saturated(c.selectors, doc.matches, r.processed)
  {
    var logged := Attribution.GetUtmValue(c, query, st, now);
    RunSelectorsSaturates(c, query, now, c.selectors, PassState(doc, reg, logged.storage, 0));
  }

  /** A pass writes no element that is new to none of the selectors, and changes no anchor flag. */
  lemma PassLeavesOthersAlone(c: Config, query: Option<string>, now: nat, doc: Document, reg: Registry, st: Store,
                              id: ElementId)
    requires WellFormed(doc) && id in doc.elements
    ensures UpdatePhoneElements(c, query, now, doc, reg, st).document.elements[id].isAnchor == doc.elements[id].isAnchor
    ensures Untouched(c.selectors, doc.matches, reg, id) ==>
              UpdatePhoneElements(c, query, now, doc, reg, st).document.elements[id] == doc.elements[id]
  {
    var logged := Attribution.GetUtmValue(c, query, st, now);
    RunSelectorsKeepsAnchors(c, query, now, c.selectors, PassState(doc, reg, logged.storage, 0), id);
    if Untouched(c.selectors, doc.matches, reg, id) {
      RunSelectorsLeavesUntouched(c, query, now, c.selectors, PassState(doc, reg, logged.storage, 0), id);
    }
  }

  /**
   A second pass at the same instant with the same query parameter, over the
   document, registry and storage the first one left behind, returns 0 and
   changes nothing, storage included.
   */
  lemma PassIdempotent(c: Config, query: Option<string>, now: nat, doc: Document, reg: Registry, st: Store)
    requires WellFormed(doc)
    ensures var first := UpdatePhoneElements(c, query, now, doc, reg, st);
            UpdatePhoneElements(c, query, now, first.document, first.processed, first.storage)
              == first.(updated := 0)
  {
    var logged := Attribution.GetUtmValue(c, query, st, now);
    Attribution.GetUtmValueStable(c, query, st, now);
    var first := UpdatePhoneElements(c, query, now, doc, reg, st);
    assert first.storage == logged.storage;
    PassRegistersMatches(c, query, now, doc, reg, st);
    RunSelectorsNoOp(c, query, now, c.selectors, PassState(first.document, first.processed, first.storage, 0));
  }

  /**
   A second pass over the document and registry the first one left behind
   returns 0 and writes and registers nothing, whatever its query parameter,
   clock reading and storage.
   */
  lemma PassIdempotentLater(c: Config, q1: Option<string>, n1: nat, q2: Option<string>, n2: nat,
                            doc: Document, reg: Registry, st: Store, st2: Store)
    requires WellFormed(doc)
    ensures var first := UpdatePhoneElements(c, q1, n1, doc, reg, st);
            var second := UpdatePhoneElements(c, q2, n2, first.document, first.processed, st2);
            second.updated == 0 && second.document == first.document && second.processed == first.processed
  {
    var first := UpdatePhoneElements(c, q1, n1, doc, reg, st);
    var logged := Attribution.GetUtmValue(c, q2, st2, n2);
    PassRegistersMatches(c, q1, n1, doc, reg, st);
    RunSelectorsSaturatedUnchanged(c, q2, n2, c.selectors, PassState(first.document, first.processed, logged.storage, 0));
  }

  /**
   Every element ends the pass as the selectors it was new to wrote it, in the
   configured order, each with its own number for the attribution the pass
   resolved at its start; the last of them wins.
   */
  lemma PassWritesInOrder(c: Config, query: Option<string>, now: nat, doc: Document, reg: Registry, st: Store,
                          id: ElementId)
    requires WellFormed(doc) && Distinct(c.selectors) && id in doc.elements
    ensures UpdatePhoneElements(c, query, now, doc, reg, st).document.elements[id]
              == WrittenInOrder(c, Attribution.GetUtmValue(c, query, st, now).value, c.selectors,
                                doc.matches, reg, id, doc.elements[id])
  {
    var logged := Attribution.GetUtmValue(c, query, st, now);
    Attribution.GetUtmValueStable(c, query, st, now);
    RunSelectorsWritesInOrder(c, query, now, c.selectors, PassState(doc, reg, logged.storage, 0), id);
  }

  /**
   An element new to the last configured selector ends the pass with that
   selector's number, whatever earlier selectors wrote, provided each of them
   resolves to a number with a visible character.
   */
  lemma PassLastSelectorWins(c: Config, query: Option<string>, now: nat, doc: Document, reg: Registry, st: Store,
                             id: ElementId)
    requires WellFormed(doc) && Distinct(c.selectors) && c.selectors != [] && AllValid(c.selectors, doc.matches)
    requires var last := c.selectors[|c.selectors| - 1];
             id in doc.elements && id in Fresh(doc.matches[last], SeenFor(reg, last))
    requires forall i :: 0 <= i < |c.selectors| - 1 ==>
               HasVisibleText(Resolver.GetPhoneForSelector(c, c.selectors[i], Attribution.GetUtmValue(c, query, st, now).value).number)
    ensures UpdatePhoneElements(c, query, now, doc, reg, st).document.elements[id]
              == UpdateElement(doc.elements[id],
                               Resolver.GetPhoneForSelector(c, c.selectors[|c.selectors| - 1],
                                                            Attribution.GetUtmValue(c, query, st, now).value).number,
                               c.updateLinks)
  {
    var value := Attribution.GetUtmValue(c, query, st, now).value;
    PassWritesInOrder(c, query, now, doc, reg, st, id);
    LastSelectorWins(c, value, c.selectors, doc.matches, reg, id, doc.elements[id]);
  }

  /**
   With the shipped configuration, an element new to the generic `.phone`
   selector, which is visited last, shows `.phone`'s number even when a more
   specific selector such as `.header-phone` also matched it.
   */
  lemma ShippedGenericSelectorWins(query: Option<string>, now: nat, doc: Document, reg: Registry, st: Store,
                                   id: ElementId)
    requires WellFormed(doc) && AllValid(ShippedConfig.selectors, doc.matches)
    requires ".phone" in doc.matches && id in doc.matches[".phone"] && !SeenFor(reg, ".phone").Contains(id)
    ensures id in doc.elements
    ensures UpdatePhoneElements(ShippedConfig, query, now, doc, reg, st).document.elements[id]
              == UpdateElement(doc.elements[id],
                               Resolver.GetPhoneForSelector(ShippedConfig, ".phone",
                                                            Attribution.GetUtmValue(ShippedConfig, query, st, now).value).number,
                               true)
  {
    var c := ShippedConfig;
    var value := Attribution.GetUtmValue(c, query, st, now).value;
    ShippedConfigShape();
    assert id in doc.elements by {
      var i :| 0 <= i < |doc.matches[".phone"]| && doc.matches[".phone"][i] == id;
    }
    forall i | 0 <= i < |c.selectors| - 1
      ensures HasVisibleText(Resolver.GetPhoneForSelector(c, c.selectors[i], value).number)
    {
      Resolver.ShippedNumberVisible(c.selectors[i], value);
    }
    PassLastSelectorWins(c, query, now, doc, reg, st, id);
  }

  /**
   An element new to exactly one selector ends the pass written with that
   selector's number for the attribution the pass resolved at its start.
   */
  lemma PassWritesResolvedNumber(c: Config, query: Option<string>, now: nat, doc: Document, reg: Registry, st: Store,
                                 k: nat, id: ElementId)
    requires WellFormed(doc)
    requires k < |c.selectors| && forall j :: 0 <= j <= k ==> c.selectors[j] in doc.matches
    requires id in doc.matches[c.selectors[k]] && !SeenFor(reg, c.selectors[k]).Contains(id)
    requires forall j :: (0 <= j < |c.selectors| && j != k && c.selectors[j] in doc.matches)
                           ==> id !in doc.matches[c.selectors[j]]
    ensures id in doc.elements
    ensures UpdatePhoneElements(c, query, now, doc, reg, st).document.elements[id]
              == UpdateElement(doc.elements[id],
                               Resolver.GetPhoneForSelector(c, c.selectors[k], Attribution.GetUtmValue(c, query, st, now).value).number,
                               c.updateLinks)
  {
    var logged := Attribution.GetUtmValue(c, query, st, now);
    Attribution.GetUtmValueStable(c, query, st, now);
    RunSelectorsWrites(c, query, now, c.selectors, PassState(doc, reg, logged.storage, 0), k, id);
  }
}

=== FILE: watcher.dfy ===
/**
 The script's module-level state and the code around the pass: the debounce
 timer, `cleanup`, the mutation observer's decision to schedule a pass, the
 timer firing, and `init`. Timers are modelled by their handles; only whether a
 handle is still pending matters, not when it fires.
 */
module Watcher {
  import opened Wrappers
  import opened Settings
  import opened LocalStorage
  import opened Updater

  /** A `setTimeout` handle. */
  type TimerHandle = nat

  /**
   The `processed` object and `debounceTimer` variable, together with the
   handles the browser still has pending (`scheduled`) and the next handle it
   will issue.
   */
  datatype Swapper = Swapper(processed: Registry, debounceTimer: Option<TimerHandle>,
                             scheduled: set<TimerHandle>, nextHandle: TimerHandle)

  /**
   The only timer that can be pending is the one `debounceTimer` remembers, and
   every handle issued so far is below `nextHandle`. (After its timer fires,
   `debounceTimer` keeps the spent handle: the script never resets it there.)
   */
  predicate Valid(w: Swapper) {
    && (forall h :: h in w.scheduled ==> w.debounceTimer == Some(h))
    && (w.debounceTimer.Some? ==> w.debounceTimer.value < w.nextHandle)
  }

  /** The state when the script is loaded. */
  function Initial(): (w: Swapper)
    ensures Valid(w) && w.scheduled == {}
    ensures w.processed == map[] && w.debounceTimer == None
  {
    Swapper(map[], None, {}, 1)
  }

  /** `debounceUpdate`: cancel the remembered timer, if any, and schedule a new one. */
  function Debounce(w: Swapper): (r: Swapper)
    ensures r.processed == w.processed
    ensures r.debounceTimer == Some(w.nextHandle) && w.nextHandle in r.scheduled
    ensures Valid(w) ==> Valid(r) && r.scheduled == {w.nextHandle}
    ensures Valid(w) && w.debounceTimer.Some? ==> w.debounceTimer.value !in r.scheduled
  {
    var remaining := if w.debounceTimer.Some? then w.scheduled - {w.debounceTimer.value} else w.scheduled;
    Swapper(w.processed, Some(w.nextHandle), remaining + {w.nextHandle}, w.nextHandle + 1)
  }

  /** `cleanup`: cancel the remembered timer, forget it, and empty the registry. */
  function Cleanup(w: Swapper): (r: Swapper)
    ensures r.processed == map[] && r.debounceTimer == None
    ensures r.scheduled <= w.scheduled
    ensures Valid(w) ==> Valid(r) && r.scheduled == {}
  {
    var remaining := if w.debounceTimer.Some? then w.scheduled - {w.debounceTimer.value} else w.scheduled;
    Swapper(map[], None, remaining, w.nextHandle)
  }

  /** A second `cleanup` has nothing left to do. */
  lemma CleanupIdempotent(w: Swapper)
    ensures Cleanup(Cleanup(w)) == Cleanup(w)
  {
  }

  /** `n` calls of `debounceUpdate` in a row. */
  function DebounceTimes(w: Swapper, n: nat): Swapper
    decreases n
  {
    if n == 0 then w else Debounce(DebounceTimes(w, n - 1))
  }

  /** However many calls come in a row, exactly one timer is left pending: the last one. */
  lemma {:induction false} DebounceCoalesces(w: Swapper, n: nat)
    requires Valid(w) && n >= 1
    ensures var r := DebounceTimes(w, n);
            Valid(r) && r.debounceTimer.Some? && r.scheduled == {r.debounceTimer.value}
    decreases n
  {
    if n > 1 {
      DebounceCoalesces(w, n - 1);
    }
  }

  /** The page: the document and the storage. */
  datatype Page = Page(document: Document, storage: Store)

  /** The result of a timer firing: new state, new page, and whether a pass ran. */
  datatype Fired = Fired(swapper: Swapper, page: Page, ran: bool)

  /**
   The timer `h` fires: if it is still pending, the pass runs on the current
   registry; a cancelled or spent timer does nothing.
   */
  function Fire(c: Config, query: Option<string>, now: nat, w: Swapper, h: TimerHandle, page: Page): (r: Fired)
    requires WellFormed(page.document)
    ensures r.ran <==> h in w.scheduled
    ensures !r.ran ==> r == Fired(w, page, false)
    ensures h !in r.swapper.scheduled && r.swapper.scheduled <= w.scheduled
    ensures r.swapper.debounceTimer == w.debounceTimer
    ensures WellFormed(r.page.document)
    ensures Valid(w) ==> Valid(r.swapper)
    ensures r.ran ==> var p := UpdatePhoneElements(c, query, now, page.document, w.processed, page.storage);
                      r.page == Page(p.document, p.storage) && r.swapper.processed == p.processed
  {
    if h in w.scheduled then
      var pass := UpdatePhoneElements(c, query, now, page.document, w.processed, page.storage);
      Fired(w.(processed := pass.processed, scheduled := w.scheduled - {h}), Page(pass.document, pass.storage), true)
    else
      Fired(w, page, false)
  }

  /**
   After a burst of `n` schedulings, only the last timer runs a pass when it
   fires, and once it has, no timer is left to run another.
   */
  lemma BurstRunsOnePass(c: Config, query: Option<string>, now: nat, w: Swapper, n: nat,
                         page: Page, h: TimerHandle, later: TimerHandle)
    requires Valid(w) && n >= 1 && WellFormed(page.document)
    ensures var burst := DebounceTimes(w, n);
            var fired := Fire(c, query, now, burst, h, page);
            && (fired.ran <==> burst.debounceTimer == Some(h))
            && (fired.ran ==> !Fire(c, query, now, fired.swapper, later, fired.page).ran)
  {
    DebounceCoalesces(w, n);
  }

  // ----- The mutation observer -----

  datatype MutationKind = ChildList | Attributes | CharacterData

  /**
   An added node: its `nodeType`, the selectors the node itself matches, and for
   each selector the number of its descendants `node.querySelectorAll` finds
   (a selector absent from the map is one `querySelectorAll` rejects by throwing).
   The scan never reads `selfMatches`: `querySelectorAll` searches descendants
   only, and the field is there so that `SelfMatchIgnored` can state that a node
   matching a selector itself does not trigger a pass.
   */
  datatype Node = Node(nodeType: int, selfMatches: set<string>, descendantMatches: map<string, nat>)

  datatype Mutation = Mutation(kind: MutationKind, addedNodes: seq<Node>)

  /** None of the first `k` selectors makes `node.querySelectorAll` throw. */
  predicate QueryableThrough(n: Node, sels: seq<string>, k: nat)
    requires k <= |sels|
  {
    forall j :: 0 <= j < k ==> sels[j] in n.descendantMatches
  }

  /**
   The scan of one added element node over the selectors: it stops at the first
   selector with a descendant match (update), or at the first selector that
   throws (no update from this node). Only descendants count.
   */
  function NodeTriggers(n: Node, sels: seq<string>): (r: bool)
    ensures r <==> exists k :: 0 <= k < |sels| && QueryableThrough(n, sels, k)
                               && sels[k] in n.descendantMatches && n.descendantMatches[sels[k]] > 0
    decreases |sels|
  {
    if sels == [] then false
    else if sels[0] !in n.descendantMatches then false
    else if n.descendantMatches[sels[0]] > 0 then true
    else
      var rest := NodeTriggers(n, sels[1..]);
      assert rest ==> exists k :: 0 <= k < |sels| && QueryableThrough(n, sels, k)
                                  && sels[k] in n.descendantMatches && n.descendantMatches[sels[k]] > 0 by {
        if rest {
          var k :| 0 <= k < |sels[1..]| && QueryableThrough(n, sels[1..], k)
                   && sels[1..][k] in n.descendantMatches && n.descendantMatches[sels[1..][k]] > 0;
          assert QueryableThrough(n, sels, k + 1);
        }
      }
      rest
  }

  /**
   An added element that itself matches every selector, but has no matching
   descendant, does not cause an update. The script's comment
   (`// Check if the added node or its children…`) says the node itself is
   checked, but `querySelectorAll` only sees its descendants.
   */
  lemma SelfMatchIgnored(sels: seq<string>)
    ensures !NodeTriggers(Node(1, set s | s in sels, map s | s in sels :: 0), sels)
  {
  }

  /** A mutation record adds an element node whose scan asks for an update. */
  predicate AddsMatchingElement(mutation: Mutation, sels: seq<string>) {
    && mutation.kind == ChildList
    && exists j :: 0 <= j < |mutation.addedNodes| && mutation.addedNodes[j].nodeType == 1
                   && NodeTriggers(mutation.addedNodes[j], sels)
  }

  /** The `shouldUpdate` flag the observer callback computes over a batch of mutation records. */
  method ShouldUpdate(mutations: seq<Mutation>, sels: seq<string>) returns (b: bool)
    ensures b <==> exists i :: 0 <= i < |mutations| && AddsMatchingElement(mutations[i], sels)
  {
    b := false;
    var i := 0;
    while i < |mutations|
      invariant 0 <= i <= |mutations|
      invariant b <==> exists i' :: 0 <= i' < i && AddsMatchingElement(mutations[i'], sels)
    {
      var mutation := mutations[i];
      var found := false;
      if mutation.kind == ChildList && |mutation.addedNodes| > 0 {
        var j := 0;
        while j < |mutation.addedNodes|
          invariant 0 <= j <= |mutation.addedNodes|
          invariant found <==> exists j' :: 0 <= j' < j && mutation.addedNodes[j'].nodeType == 1
                                             && NodeTriggers(mutation.addedNodes[j'], sels)
        {
          var node := mutation.addedNodes[j];
          if node.nodeType == 1 && NodeTriggers(node, sels) {
            found := true;
          }
          j := j + 1;
        }
      }
      b := b || found;
      i := i + 1;
    }
  }

  /** The observer callback: schedule a debounced pass when the batch calls for one. */
  method OnMutations(w: Swapper, mutations: seq<Mutation>, sels: seq<string>) returns (r: Swapper)
    ensures (exists i :: 0 <= i < |mutations| && AddsMatchingElement(mutations[i], sels)) ==> r == Debounce(w)
    ensures !(exists i :: 0 <= i < |mutations| && AddsMatchingElement(mutations[i], sels)) ==> r == w
  {
    var b := ShouldUpdate(mutations, sels);
    r := if b then Debounce(w) else w;
  }

  // ----- init -----

  /** The result of `init`: state, page, and whether the observer is watching. */
  datatype Started = Started(swapper: Swapper, page: Page, observing: bool)

  /**
   `init`: clean up, run the first pass now unless the document is still
   loading (then it waits for `DOMContentLoaded`), and watch for new content
   when configured to and the browser offers `MutationObserver`.
   */
  function Init(c: Config, query: Option<string>, now: nat, w: Swapper, page: Page,
                documentLoading: bool, hasMutationObserver: bool): (r: Started)
    requires WellFormed(page.document)
    ensures r.swapper.debounceTimer == None
    ensures Valid(w) ==> Valid(r.swapper) && r.swapper.scheduled == {}
    ensures r.observing <==> c.watchDynamicContent && hasMutationObserver
    ensures documentLoading ==> r.swapper.processed == map[] && r.page == page
    ensures !documentLoading ==> Saturated(c.selectors, page.document.matches, r.swapper.processed)
    ensures !documentLoading ==> var p := UpdatePhoneElements(c, query, now, page.document, map[], page.storage);
                                 r.page == Page(p.document, p.storage) && r.swapper.processed == p.processed
  {
    var clean := Cleanup(w);
    var observing := c.watchDynamicContent && hasMutationObserver;
    if documentLoading then
      Started(clean, page, observing)
    else
      var pass := UpdatePhoneElements(c, query, now, page.document, clean.processed, page.storage);
      PassRegistersMatches(c, query, now, page.document, clean.processed, page.storage);
      Started(clean.(processed := pass.processed), Page(pass.document, pass.storage), observing)
  }
}

=== FILE: wrappers.dfy ===
/** The optional value used where the script works with `null` or a missing entry. */
module Wrappers {

  /** `None` stands for JavaScript's `null` (or an absent key); `Some(v)` for a present value. */
  datatype Option<+T> = None | Some(value: T)
}
